=== FILE: README.md ===
# Thumblify thumbnail controller, modelled in Dafny

This project models the request logic of Thumblify's thumbnail controller,
`server/controllers/ThumbnailController.ts`. The controller has two handlers.
`generateThumbnail` checks the session and the title. It creates a pending
thumbnail record, composes an image prompt from the request's style,
colour-scheme and free-text options, asks an image generator for a picture,
and takes the last inline image part of the response. It then uploads that
image to a media host and marks the record complete. `deleteThumbnail` checks
the session and issues one delete.

The model covers the parts of the controller that are pure logic. The
external calls are inputs to the model:

- the store accepting or rejecting the new record,
- what the generator returns for a given prompt and aspect ratio,
- what the media host returns for a given image,
- whether the final save and the delete succeed.

Each handler is a pure function. `GenerateThumbnail` returns the HTTP reply,
the record as the store last accepted it, and the list of calls it made, in
order. `DeleteThumbnail` returns the HTTP reply and the list of calls it made.

Modules:

- `Wrappers`: `Option` and `Result`.
- `Js`: the JavaScript semantics the controller relies on. These are
  truthiness, `a || b`, and template interpolation of `undefined`.
- `Prompt`: the two lookup tables and the prompt composer (`Compose`). It
  also holds a clause-list reference description of the prompt (`Clauses`,
  `Describes`), with proofs that the two agree and that the description
  determines the prompt.
- `AiResponse`: the response shape and the optional-chain check. It holds
  the "last inline part wins" policy as a reference function (`LastInline`)
  and the controller's front-to-back loop (`SelectImage`).
- `Thumbnails`: the record and its two states, pending and complete.
- `Handlers`: `GenerateThumbnail` and `DeleteThumbnail`.

Behaviours of the code worth noting, all kept in the model:

- The record's `prompt_used` field holds the user's own text (line 42), not
  the composed prompt.
- Deletion passes the filter `{ _id: id, userId }` to `findByIdAndDelete`.
  That call takes an id, so whether ownership is enforced depends on store
  behaviour that is not visible here. The model records the call and its
  arguments. It claims nothing about which record is removed.
- The upload's `secure_url` is stored as received. Nothing checks that it is
  an HTTPS URL, and it may be missing.
- An empty `parts` array passes the `response?.candidates?.[0]?.content?.parts`
  check, because arrays are truthy. It then fails with "Image buffer not
  generated", not "Unexpected AI response".
- A decoded buffer is always truthy, so a part whose inline payload is empty
  still counts as an image.

## Model

| member | source | states |
|---|---|---|
| Js.Truthy | server/controllers/ThumbnailController.ts:36-37 | A field is falsy exactly when it is undefined, null or the empty string; this is the test behind `!userId`, `!title`, `if (color_scheme)` and `if (user_prompt)`. |
| Js.Or | server/controllers/ThumbnailController.ts:59 | The or-with-fallback expression of line 59 gives the value when truthy and the fallback otherwise, so it is never empty when the fallback is not. |
| Js.Interpolate | server/controllers/ThumbnailController.ts:70 | A template interpolation renders a present string as itself and an absent value as the text "undefined". |
| Prompt.Compose | server/controllers/ThumbnailController.ts:70-81 | The `+=`-accumulated prompt always starts with `Create a <style phrase> for: "<title>". ` and always ends with the fixed closing sentence, and it is at least as long as both together. |
| Prompt.StylePhrase | server/controllers/ThumbnailController.ts:7-18 | A style tag in the five-entry table yields its phrase. Any other tag, or none, yields the text "undefined": there is no validation. |
| Prompt.ColourPhrase | server/controllers/ThumbnailController.ts:20-29 | A scheme tag in the eight-entry table yields its phrase. Any other tag yields "undefined". |
| Prompt.ComposeLayout | server/controllers/ThumbnailController.ts:70-81 | The prompt starts with `Create a <style phrase> for: "<title>". `. Right after it comes `Use a <phrase> color scheme. ` if the scheme is truthy, and no text otherwise. Next comes `Additional details: <text>. ` if the user's text is truthy, with that text verbatim right after the 20-character label, and no text otherwise. The fixed closing sentence ends the prompt, and the total length leaves room for nothing else. |
| Prompt.Clauses | server/controllers/ThumbnailController.ts:70-81 | The clause list a request calls for has 2 clauses, plus one for a truthy scheme and one for truthy user text. It opens with the style clause and ends with the closing clause. |
| Prompt.ClausesDescribed | server/controllers/ThumbnailController.ts:70-81 | That clause list meets the declarative account: ordered style < colour < details < closing, only wanted clauses, and every required one present. |
| Prompt.DescribedListIsClauses | server/controllers/ThumbnailController.ts:70-81 | Any clause list that meets the declarative account is that list, so the order and content of the prompt are fully determined. |
| Prompt.OptionalClausesIffTruthy | server/controllers/ThumbnailController.ts:72-78 | A colour clause is present if and only if the scheme is truthy. A details clause is present if and only if the user's text is truthy. |
| Prompt.ComposeRendersClauses | server/controllers/ThumbnailController.ts:70-81 | The string built by `+=` equals the rendering of the clause list, in list order, with nothing else. |
| Prompt.DetailsSentenceQuotes | server/controllers/ThumbnailController.ts:77 | The details sentence contains the user's text verbatim after its 20-character label. |
| Prompt.MinimalistScenario | server/controllers/ThumbnailController.ts:70-81 | Title "My Video", style "Minimalist", no scheme and no text give the minimalist style sentence followed directly by the closing sentence. |
| Prompt.UnknownTagsInterpolateUndefined | server/controllers/ThumbnailController.ts:70-74 | Unknown style and scheme tags are not rejected. The prompt carries "undefined" in place of both phrases. |
| AiResponse.FirstCandidateParts | server/controllers/ThumbnailController.ts:89-93 | The optional chain yields the parts if and only if the response, its candidates, a first candidate, its content and its parts are all present; an empty array counts as present. |
| AiResponse.LastInline | server/controllers/ThumbnailController.ts:95-105 | The selection is absent if and only if no part carries inline data. Otherwise it is the data of a part that carries inline data and has no later inline part. |
| AiResponse.SelectImage | server/controllers/ThumbnailController.ts:95-101 | The controller's front-to-back overwrite loop computes exactly the last-inline selection. |
| AiResponse.LastInlineAppend | server/controllers/ThumbnailController.ts:97-101 | Earlier inline parts are discarded. If the appended parts carry inline data, they alone decide the selection. |
| AiResponse.ExtractImage | server/controllers/ThumbnailController.ts:89-105 | The result is "Unexpected AI response" if and only if the first candidate's `parts` is missing. If parts exist, the result fails with "Image buffer not generated" if and only if no part is inline, and succeeds if and only if some part is inline. A success is the last inline payload. No other result is possible. |
| AiResponse.EmptyCandidatesIsUnexpected | server/controllers/ThumbnailController.ts:89-91 | An empty candidates list is an "Unexpected AI response". |
| AiResponse.EmptyPartsIsNoImage | server/controllers/ThumbnailController.ts:89-105 | An empty `parts` array passes the first check and fails with "Image buffer not generated". |
| Thumbnails.NewRecord | server/controllers/ThumbnailController.ts:39-49 | A new record is pending and owned by the session's user. It carries the body's fields as sent, with `prompt_used` equal to the user's text and the aspect ratio not defaulted. |
| Thumbnails.MarkComplete | server/controllers/ThumbnailController.ts:119-120 | Completion clears the generating flag and attaches the upload's URL. It changes no request field, and the result is no longer pending. |
| Handlers.RequestedAspectRatio | server/controllers/ThumbnailController.ts:59 | The generator's aspect ratio is the request's when truthy and "16:9" otherwise, so it is never empty. |
| Handlers.GenerateFailed | server/controllers/ThumbnailController.ts:124-126 | The catch block replies 500 with the error's message when truthy and "Internal Server Error" otherwise, keeping the stored record and the calls made so far. |
| Handlers.GenerateThumbnail | server/controllers/ThumbnailController.ts:31-128 | No session gives 401 "Unauthorized", with no record and no call. A session without a title gives 400 "Title is required", with no record and no call. Every reply is 200, 400, 401 or 500, and a 500 always carries a non-empty message. |
| Handlers.GenerateCallsInPipelineOrder | server/controllers/ThumbnailController.ts:36-121 | Calls happen in the order create, generate, upload, save, each at most once. There are none if and only if the reply is 401 or 400. |
| Handlers.GenerateCallArguments | server/controllers/ThumbnailController.ts:39-117 | The created record is pending and built from the body. The generator gets the composed prompt and the request's aspect ratio, or "16:9" when that is falsy. The uploaded image is the one extracted from the generator's response. |
| Handlers.GenerateSucceeds | server/controllers/ThumbnailController.ts:39-123 | When the session and title are present, the create succeeds, the response carries an image, the upload resolves and the save succeeds, the reply is 200 "Thumbnail Generated" with the completed record. That record carries the upload's URL, is no longer generating, and is what the store holds. |
| Handlers.RecordCompleteIffSuccess | server/controllers/ThumbnailController.ts:39-123 | A record is stored once the store accepts it. It is complete if and only if the reply is 200. A 200 needs a successful upload whose URL the record carries, plus a successful save. Every failure leaves the record pending. |
| Handlers.SessionCheckedBeforeTitle | server/controllers/ThumbnailController.ts:36-37 | Without a session the outcome is 401 and does not depend on the body or the services. |
| Handlers.GeneratorErrorReply | server/controllers/ThumbnailController.ts:124-126 | A throwing generator gives 500 with its message, or "Internal Server Error" when the message is missing or empty. The record stays pending. |
| Handlers.CreateErrorReply | server/controllers/ThumbnailController.ts:39-49 | A store that refuses the new record gives 500 with the store error's message, or "Internal Server Error" when it is missing or empty. No record exists and no other call is made. |
| Handlers.NoImageReply | server/controllers/ThumbnailController.ts:103-105 | A response with no inline part gives 500 "Image buffer not generated". The record stays pending and nothing is uploaded. |
| Handlers.UnexpectedResponseReply | server/controllers/ThumbnailController.ts:89-91 | Any response that fails the optional chain gives 500 "Unexpected AI response": a null response, missing candidates, an empty candidates list, a first candidate without content, or content without parts. The record stays pending and nothing is uploaded. |
| Handlers.EmptyCandidatesReply | server/controllers/ThumbnailController.ts:89-91 | An empty candidates list gives 500 "Unexpected AI response". The record stays pending and nothing is uploaded. |
| Handlers.UploadFailureLeavesPending | server/controllers/ThumbnailController.ts:108-126 | A rejected upload gives 500 with the rejection's message, or "Internal Server Error" when it is missing or empty. The stored record is the pending one and no save is issued. |
| Handlers.SaveFailureOrphansUpload | server/controllers/ThumbnailController.ts:116-126 | A failing save after a successful upload gives 500 with the save error's message, or "Internal Server Error", and leaves the record pending although the image was uploaded. |
| Handlers.DeleteThumbnail | server/controllers/ThumbnailController.ts:131-145 | No session gives 401 and no call. Otherwise exactly one delete is issued with the path id and the session's user. The reply is 200 "Thumbnail deleted successfully" if and only if the delete did not throw, whether or not a record matched. Otherwise it is 500 with the error's message as is, with no fallback text. |
| Handlers.DeleteReplyIgnoresId | server/controllers/ThumbnailController.ts:136-140 | The delete reply depends only on the session and on whether the delete threw, never on the id, so an id matching no record still gets 200. |
| Handlers.DeleteErrorHasNoFallback | server/controllers/ThumbnailController.ts:126-143 | A message-less error gives a delete reply of 500 with no message, while the same error in generation gives "Internal Server Error". |

## Left out

- Handlers.GenerateThumbnail: its own contract only requires a 500 to carry a non-empty message. Which message each failing step produces is stated separately by CreateErrorReply, GeneratorErrorReply, UnexpectedResponseReply, NoImageReply, UploadFailureLeavesPending and SaveFailureOrphansUpload, because a single contract covering every step made the proof too expensive.

- The generator's configuration (lines 51-68): the model id, token budget, temperature, top-p, image size and safety settings. It is a foreign API with floating-point constants. Only the aspect ratio it receives is modelled.
- The generator call itself (lines 83-87) is an input function from prompt and aspect ratio to a response or an error.
- A `null` entry in the parts array (line 98) and an upload that resolves with no result object at all (line 119). In the source, each throws a TypeError that becomes a 500 with that error's message. A part cannot be null in the model, and an upload always resolves to a result, possibly one without `secure_url`. Both are foreign-library behaviours outside the modelled response and upload shapes.
- Base64 decoding with `Buffer.from` (line 99): an inline payload is modelled by the bytes it decodes to. A part whose `inlineData` lacks `data` makes `Buffer.from` throw. That is not modelled.
- The upload stream and its promise plumbing (lines 108-117) are an input function from image bytes to a result or a rejection.
- Persistence: `Thumbnail.create`, `save` and `findByIdAndDelete` are success-or-error inputs. The schema's own validation and defaults are not part of this model, and which record a delete removes is not modelled.
- Express request and response objects, the session middleware and `console.error` logging. A missing `req.session` or `req.body` would throw while destructuring; the model assumes both exist.
- Body fields that are not strings: numbers, booleans and objects are modelled as absent.
- Table keys inherited from the object prototype, such as `constructor`, are treated like any unknown key.
- Async sequencing: each handler is one straight-line function, because no work within a request runs concurrently.

=== FILE: ai_response.dfy ===
/** The image generator's response as the controller reads it
    (server/controllers/ThumbnailController.ts, lines 89-105): the parts of
    the first candidate, and among them the inline image payload. Only the
    fields the controller touches are modelled. */
module AiResponse {
  import opened Wrappers

  /** Decoded image bytes. The base64 text of the response is modelled by the
      bytes it decodes to. */
  type Payload = seq<bv8>

  datatype InlineData = InlineData(data: Payload)

  /** A response part; text parts and other kinds carry no inline data. */
  datatype Part = Part(inlineData: Option<InlineData>)

  datatype Content = Content(parts: Option<seq<Part>>)

  datatype Candidate = Candidate(content: Option<Content>)

  datatype GenerateResponse = GenerateResponse(candidates: Option<seq<Candidate>>)

  const UnexpectedResponse: string := "Unexpected AI response"
  const NoImage: string := "Image buffer not generated"

  /** The optional chain `response?.candidates?.[0]?.content?.parts`. An
      array, even an empty one, is truthy, so only a missing link fails. */
  function FirstCandidateParts(response: Option<GenerateResponse>): (r: Option<seq<Part>>)
    ensures r.Some? <==>
      && response.Some?
      && response.value.candidates.Some?
      && |response.value.candidates.value| > 0
      && response.value.candidates.value[0].content.Some?
      && response.value.candidates.value[0].content.value.parts.Some?
    ensures r.Some? ==> r == response.value.candidates.value[0].content.value.parts
  {
    match response
    case None => None
    case Some(r) =>
      match r.candidates
      case None => None
      case Some(candidates) =>
        if |candidates| == 0 then None
        else
          match candidates[0].content
          case None => None
          case Some(content) => content.parts
  }

  /** Part i carries inline data and no later part does. */
  ghost predicate IsLastInline(parts: seq<Part>, i: int) {
    && 0 <= i < |parts|
    && parts[i].inlineData.Some?
    && forall j :: i < j < |parts| ==> parts[j].inlineData.None?
  }

  /** Reference definition of the selection policy: looking from the end, the
      data of the first part that carries inline data. */
  function LastInline(parts: seq<Part>): (r: Option<Payload>)
    ensures r.None? <==> forall i :: 0 <= i < |parts| ==> parts[i].inlineData.None?
    ensures r.Some? ==> exists i :: IsLastInline(parts, i) && parts[i].inlineData.value.data == r.value
  {
    if |parts| == 0 then None
    else
      var last := parts[|parts| - 1];
      if last.inlineData.Some? then
        assert IsLastInline(parts, |parts| - 1);
        Some(last.inlineData.value.data)
      else
        var r := LastInline(parts[..|parts| - 1]);
        assert r.Some? ==> exists i :: IsLastInline(parts, i) && parts[i].inlineData.value.data == r.value by {
          if r.Some? {
            var i :| IsLastInline(parts[..|parts| - 1], i) && parts[..|parts| - 1][i].inlineData.value.data == r.value;
            assert IsLastInline(parts, i);
          }
        }
        r
  }

  /** The controller's loop (lines 95-101): scan the parts front to back and
      overwrite the buffer with every part that carries inline data, so the
      last one wins. */
  method SelectImage(parts: seq<Part>) returns (image: Option<Payload>)
    ensures image == LastInline(parts)
  {
    image := None;
    var k := 0;
    while k < |parts|
      invariant 0 <= k <= |parts|
      invariant image == LastInline(parts[..k])
    {
      if parts[k].inlineData.Some? {
        image := Some(parts[k].inlineData.value.data);
      }
      assert parts[..k + 1][..k] == parts[..k];
      k := k + 1;
    }
    assert parts[..k] == parts;
  }

  /** Earlier inline parts are discarded: parts appended after a prefix
      decide the selection whenever any of them carries inline data. */
  lemma {:induction false} LastInlineAppend(a: seq<Part>, b: seq<Part>)
    ensures LastInline(a + b) == if LastInline(b).Some? then LastInline(b) else LastInline(a)
    decreases |b|
  {
    if |b| == 0 {
      assert a + b == a;
    } else {
      var b' := b[..|b| - 1];
      assert (a + b)[..|a + b| - 1] == a + b';
      assert (a + b)[|a + b| - 1] == b[|b| - 1];
      LastInlineAppend(a, b');
    }
  }

  /** Lines 89-105: the parts chain is checked first ("Unexpected AI
      response"), then the selected inline payload must exist ("Image buffer
      not generated"). A decoded buffer is always truthy, so an empty payload
      is still an image. */
  function ExtractImage(response: Option<GenerateResponse>): (r: Result<Payload, string>)
    ensures r == Failure(UnexpectedResponse) <==> FirstCandidateParts(response).None?
    ensures FirstCandidateParts(response).Some? ==>
      var parts := FirstCandidateParts(response).value;
      && (r == Failure(NoImage) <==> forall i :: 0 <= i < |parts| ==> parts[i].inlineData.None?)
      && (r.Success? <==> exists i :: 0 <= i < |parts| && parts[i].inlineData.Some?)
      && (r.Success? ==> exists i :: IsLastInline(parts, i) && parts[i].inlineData.value.data == r.value)
    ensures r.Success? || r == Failure(UnexpectedResponse) || r == Failure(NoImage)
  {
    match FirstCandidateParts(response)
    case None => Failure(UnexpectedResponse)
    case Some(parts) =>
      match LastInline(parts)
      case None => Failure(NoImage)
      case Some(image) => Success(image)
  }

  /** An empty candidates list is a malformed response. */
  lemma EmptyCandidatesIsUnexpected()
    ensures ExtractImage(Some(GenerateResponse(Some([])))) == Failure(UnexpectedResponse)
  {
  }

  /** An empty parts array passes the truthiness check and fails as "no image". */
  lemma EmptyPartsIsNoImage(candidates: seq<Candidate>)
    requires |candidates| > 0 && candidates[0].content == Some(Content(Some([])))
    ensures ExtractImage(Some(GenerateResponse(Some(candidates)))) == Failure(NoImage)
  {
  }
}

=== FILE: handlers.dfy ===
/** The two request handlers of the thumbnail controller
    (server/controllers/ThumbnailController.ts, lines 31-145), as pure
    functions. Every external call is an input: whether the store accepts
    the new record, what the generator returns for a prompt and aspect
    ratio, what the media host returns for an image, whether the final save
    and the delete succeed. Each outcome reports the HTTP reply, the record as
    the store last accepted it, and the calls made, in order. */
module Handlers {
  import opened Wrappers
  import opened Js
  import Prompt
  import opened AiResponse
  import opened Thumbnails

  /** The session middleware's `req.session`. */
  datatype Session = Session(userId: Option<string>)

  /** A thrown JavaScript value; its `message` may be absent or empty. */
  datatype Thrown = Thrown(message: Option<string>)

  /** What `ai.models.generateContent` does: resolve with a response (which
      may be null) or throw. */
  datatype Generation = Generated(response: Option<GenerateResponse>) | GenerationThrew(error: Thrown)

  /** What the upload promise does: resolve with a result whose `secure_url`
      may be missing, or reject. */
  datatype Upload = Uploaded(secureUrl: Option<string>) | UploadRejected(error: Thrown)

  /** The external collaborators of one generation request. */
  datatype Services = Services(
    create: Option<Thrown>,
    generate: (string, string) -> Generation,
    upload: Payload -> Upload,
    save: Option<Thrown>)

  /** A call the handler makes to a collaborator. */
  datatype Effect =
    | CreateRecord(record: Thumbnail)
    | CallGenerator(prompt: string, aspectRatio: string)
    | UploadImage(image: Payload)
    | SaveRecord(record: Thumbnail)
    | DeleteRecord(id: string, userId: string)

  /** An HTTP reply: status, the JSON body's `message` (absent when the
      serialised value is undefined) and its `thumbnail`. */
  datatype Reply = Reply(status: int, message: Option<string>, thumbnail: Option<Thumbnail>)

  /** The result of a generation request. */
  datatype Outcome = Outcome(reply: Reply, stored: Option<Thumbnail>, effects: seq<Effect>)

  /** The result of a delete request. */
  datatype DeleteOutcome = DeleteOutcome(reply: Reply, effects: seq<Effect>)

  const DefaultAspectRatio: string := "16:9"
  const InternalServerError: string := "Internal Server Error"

  /** The position a call takes in the generation pipeline. */
  function Stage(e: Effect): nat {
    match e
    case CreateRecord(_) => 0
    case CallGenerator(_, _) => 1
    case UploadImage(_) => 2
    case SaveRecord(_) => 3
    case DeleteRecord(_, _) => 4
  }

  /** The catch block of generateThumbnail (line 126). */
  function GenerateFailed(e: Thrown, stored: Option<Thumbnail>, effects: seq<Effect>): (o: Outcome)
    ensures o.reply.status == 500 && o.reply.thumbnail.None?
    ensures o.reply.message == Some(if Truthy(e.message) then e.message.value else InternalServerError)
    ensures o.stored == stored && o.effects == effects
  {
    Outcome(Reply(500, Some(Or(e.message, InternalServerError)), None), stored, effects)
  }

  /** generateThumbnail. The session is checked before the title and neither
      rejection touches a collaborator; afterwards the calls happen in the
      fixed order create, generate, upload, save, each only if the previous
      one succeeded; the record the store holds is complete exactly when the
      reply is 200, and is otherwise still pending. */
  function GenerateThumbnail(session: Session, body: Body, svc: Services): (o: Outcome)
    ensures !Truthy(session.userId) ==> o == Outcome(Reply(401, Some("Unauthorized"), None), None, [])
    ensures Truthy(session.userId) && !Truthy(body.title) ==> o == Outcome(Reply(400, Some("Title is required"), None), None, [])
    ensures o.reply.status in {200, 400, 401, 500}
    ensures o.reply.status == 500 ==> o.reply.message.Some? && o.reply.message.value != ""
  {
    if !Truthy(session.userId) then
      Outcome(Reply(401, Some("Unauthorized"), None), None, [])
    else if !Truthy(body.title) then
      Outcome(Reply(400, Some("Title is required"), None), None, [])
    else
      var pending := NewRecord(session.userId.value, body.title.value, body);
      if svc.create.Some? then
        GenerateFailed(svc.create.value, None, [CreateRecord(pending)])
      else
        var aspectRatio := RequestedAspectRatio(body);
        var prompt := RequestedPrompt(body);
        var calls := [CreateRecord(pending), CallGenerator(prompt, aspectRatio)];
        match svc.generate(prompt, aspectRatio)
        case GenerationThrew(e) => GenerateFailed(e, Some(pending), calls)
        case Generated(response) =>
          match ExtractImage(response)
          case Failure(message) => GenerateFailed(Thrown(Some(message)), Some(pending), calls)
          case Success(image) =>
            var calls := calls + [UploadImage(image)];
            match svc.upload(image)
            case UploadRejected(e) => GenerateFailed(e, Some(pending), calls)
            case Uploaded(secureUrl) =>
              var complete := MarkComplete(pending, secureUrl);
              var calls := calls + [SaveRecord(complete)];
              if svc.save.Some? then
                GenerateFailed(svc.save.value, Some(pending), calls)
              else
                Outcome(Reply(200, Some("Thumbnail Generated"), Some(complete)), Some(complete), calls)
  }

  /** deleteThumbnail. Without a session nothing is deleted; otherwise one
      delete is issued with the path id and the session's user, and the reply
      is 200 whether or not a record matched. A failing delete replies 500
      with the error's message as is: unlike generateThumbnail there is no
      fallback text, so a message-less error yields a body without one. */
  function DeleteThumbnail(session: Session, id: string, deletion: Option<Thrown>): (o: DeleteOutcome)
    ensures !Truthy(session.userId) ==> o == DeleteOutcome(Reply(401, Some("Unauthorized"), None), [])
    ensures Truthy(session.userId) ==> o.effects == [DeleteRecord(id, session.userId.value)]
    ensures Truthy(session.userId) ==> (o.reply.status == 200 <==> deletion.None?)
    ensures Truthy(session.userId) && deletion.None? ==> o.reply.message == Some("Thumbnail deleted successfully")
    ensures Truthy(session.userId) && deletion.Some? ==> o.reply == Reply(500, deletion.value.message, None)
  {
    if !Truthy(session.userId) then
      DeleteOutcome(Reply(401, Some("Unauthorized"), None), [])
    else
      var calls := [DeleteRecord(id, session.userId.value)];
      match deletion
      case Some(e) => DeleteOutcome(Reply(500, e.message, None), calls)
      case None => DeleteOutcome(Reply(200, Some("Thumbnail deleted successfully"), None), calls)
  }

  /** The aspect ratio the generator is asked for (line 59). */
  function RequestedAspectRatio(body: Body): (r: string)
    ensures Truthy(body.aspectRatio) ==> r == body.aspectRatio.value
    ensures !Truthy(body.aspectRatio) ==> r == DefaultAspectRatio
    ensures r != ""
  {
    Or(body.aspectRatio, DefaultAspectRatio)
  }

  /** The prompt the generator is given (lines 70-81). */
  function RequestedPrompt(body: Body): string
    requires Truthy(body.title)
  {
    Prompt.Compose(body.title.value, body.style, body.colourScheme, body.prompt)
  }

  /** Calls happen in the fixed order create, generate, upload, save, each at
      most once, and none at all exactly when the request is rejected with 401
      or 400. */
  lemma GenerateCallsInPipelineOrder(session: Session, body: Body, svc: Services)
    ensures var o := GenerateThumbnail(session, body, svc);
      && (o.effects == [] <==> o.reply.status == 401 || o.reply.status == 400)
      && (forall i :: 0 <= i < |o.effects| ==> Stage(o.effects[i]) == i)
  {
  }

  /** What each call is given: the new record is pending and carries the
      body's fields; the generator receives the composed prompt and the
      request's aspect ratio, or "16:9" when that is falsy; the uploaded
      image is the one extracted from the generator's response. */
  lemma GenerateCallArguments(session: Session, body: Body, svc: Services)
    ensures var o := GenerateThumbnail(session, body, svc);
      forall e :: e in o.effects ==>
        && (e.CreateRecord? ==> Pending(e.record) && e.record == NewRecord(session.userId.value, body.title.value, body))
        && (e.CallGenerator? ==>
              && e.prompt == RequestedPrompt(body)
              && e.aspectRatio == (if Truthy(body.aspectRatio) then body.aspectRatio.value else DefaultAspectRatio))
        && (e.UploadImage? ==>
              var g := svc.generate(RequestedPrompt(body), RequestedAspectRatio(body));
              g.Generated? && ExtractImage(g.response) == Success(e.image))
  {
  }

  /** The stored record's state: it exists once the store accepted it; it is
      complete exactly when the reply is 200, which needs a successful upload
      whose URL it carries and a successful save; every failure leaves it
      pending. */
  lemma RecordCompleteIffSuccess(session: Session, body: Body, svc: Services)
    ensures var o := GenerateThumbnail(session, body, svc);
      && (o.stored.Some? <==> |o.effects| > 0 && svc.create.None?)
      && (o.stored.Some? && o.reply.status != 200 ==> Pending(o.stored.value))
      && ((o.stored.Some? && !o.stored.value.isGenerating) <==> o.reply.status == 200)
      && (o.reply.status == 200 ==>
            && |o.effects| == 4
            && o.effects[2].UploadImage?
            && svc.upload(o.effects[2].image) == Uploaded(o.stored.value.imageUrl)
            && svc.save.None?
            && o.effects[3] == SaveRecord(o.stored.value)
            && o.reply == Reply(200, Some("Thumbnail Generated"), o.stored))
  {
  }

  /** Without a session the reply is 401 whatever the body holds, a missing
      title included: the session is checked first. */
  lemma SessionCheckedBeforeTitle(session: Session, body: Body, body': Body, svc: Services, svc': Services)
    requires !Truthy(session.userId)
    ensures GenerateThumbnail(session, body, svc) == GenerateThumbnail(session, body', svc')
    ensures GenerateThumbnail(session, body, svc).reply.status == 401
  {
  }

  /** A generator that throws yields 500 with its message, or the fallback
      text when the message is missing or empty; the record stays pending and
      nothing is uploaded. */
  lemma GeneratorErrorReply(session: Session, body: Body, svc: Services, e: Thrown)
    requires Truthy(session.userId) && Truthy(body.title) && svc.create.None?
    requires svc.generate(RequestedPrompt(body), RequestedAspectRatio(body)) == GenerationThrew(e)
    ensures var o := GenerateThumbnail(session, body, svc);
      && o.reply == Reply(500, Some(if Truthy(e.message) then e.message.value else InternalServerError), None)
      && o.stored == Some(NewRecord(session.userId.value, body.title.value, body))
      && |o.effects| == 2
  {
  }

  /** A response with an empty candidates list yields 500 "Unexpected AI
      response" and leaves the record pending, with nothing uploaded. */
  lemma EmptyCandidatesReply(session: Session, body: Body, svc: Services)
    requires Truthy(session.userId) && Truthy(body.title) && svc.create.None?
    requires svc.generate(RequestedPrompt(body), RequestedAspectRatio(body)) == Generated(Some(GenerateResponse(Some([]))))
    ensures var o := GenerateThumbnail(session, body, svc);
      && o.reply == Reply(500, Some(UnexpectedResponse), None)
      && o.stored.Some? && Pending(o.stored.value)
      && forall e :: e in o.effects ==> !e.UploadImage?
  {
  }

  /** Any response that fails the optional chain of line 89 (a null response,
      missing candidates, an empty candidates list, a first candidate
      without content, or content without parts) yields 500 "Unexpected AI
      response"; the record stays pending and nothing is uploaded. */
  lemma UnexpectedResponseReply(session: Session, body: Body, svc: Services, response: Option<GenerateResponse>)
    requires Truthy(session.userId) && Truthy(body.title) && svc.create.None?
    requires svc.generate(RequestedPrompt(body), RequestedAspectRatio(body)) == Generated(response)
    requires FirstCandidateParts(response).None?
    ensures var o := GenerateThumbnail(session, body, svc);
      && o.reply == Reply(500, Some(UnexpectedResponse), None)
      && o.stored == Some(NewRecord(session.userId.value, body.title.value, body))
      && forall e :: e in o.effects ==> !e.UploadImage?
  {
  }

  /** Lines 119-123: when every collaborator succeeds the reply is 200
      "Thumbnail Generated" carrying the completed record, which is also what
      the store holds. */
  lemma GenerateSucceeds(session: Session, body: Body, svc: Services, response: Option<GenerateResponse>, image: Payload, url: Option<string>)
    ensures
      && Truthy(session.userId) && Truthy(body.title) && svc.create.None? && svc.save.None?
      && svc.generate(RequestedPrompt(body), RequestedAspectRatio(body)) == Generated(response)
      && ExtractImage(response) == Success(image) && svc.upload(image) == Uploaded(url)
      ==>
      var o := GenerateThumbnail(session, body, svc);
      var done := MarkComplete(NewRecord(session.userId.value, body.title.value, body), url);
      && o.reply == Reply(200, Some("Thumbnail Generated"), Some(done))
      && o.stored == Some(done)
      && !done.isGenerating
  {
  }

  /** A store that refuses the new record yields 500 with the store's
      message, or the fallback text; no record exists and nothing else is
      called. */
  lemma CreateErrorReply(session: Session, body: Body, svc: Services, e: Thrown)
    requires Truthy(session.userId) && Truthy(body.title) && svc.create == Some(e)
    ensures var o := GenerateThumbnail(session, body, svc);
      && o.reply == Reply(500, Some(if Truthy(e.message) then e.message.value else InternalServerError), None)
      && o.stored.None?
      && o.effects == [CreateRecord(NewRecord(session.userId.value, body.title.value, body))]
  {
  }

  /** A response whose parts carry no inline data yields 500 "Image buffer not
      generated"; the record stays pending and nothing is uploaded. */
  lemma NoImageReply(session: Session, body: Body, svc: Services, response: Option<GenerateResponse>)
    requires Truthy(session.userId) && Truthy(body.title) && svc.create.None?
    requires svc.generate(RequestedPrompt(body), RequestedAspectRatio(body)) == Generated(response)
    requires ExtractImage(response) == Failure(NoImage)
    ensures var o := GenerateThumbnail(session, body, svc);
      && o.reply == Reply(500, Some(NoImage), None)
      && o.stored == Some(NewRecord(session.userId.value, body.title.value, body))
      && forall e :: e in o.effects ==> !e.UploadImage?
  {
  }

  /** A rejected upload yields 500 with the rejection's message, or the
      fallback text; the record stays pending and the completed record is
      never saved. */
  lemma UploadFailureLeavesPending(session: Session, body: Body, svc: Services)
    ensures var o := GenerateThumbnail(session, body, svc);
      forall i :: 0 <= i < |o.effects| && o.effects[i].UploadImage? && svc.upload(o.effects[i].image).UploadRejected? ==>
        var m := svc.upload(o.effects[i].image).error.message;
        && o.reply == Reply(500, Some(if Truthy(m) then m.value else InternalServerError), None)
        && o.stored == Some(NewRecord(session.userId.value, body.title.value, body))
        && forall e :: e in o.effects ==> !e.SaveRecord?
  {
  }

  /** A failing save after a successful upload yields 500 with the save
      error's message, or the fallback text, and leaves the stored record
      pending although the image was uploaded: nothing refers to the uploaded
      image and nothing undoes it. */
  lemma SaveFailureOrphansUpload(session: Session, body: Body, svc: Services)
    ensures var o := GenerateThumbnail(session, body, svc);
      forall i :: 0 <= i < |o.effects| && o.effects[i].UploadImage? && svc.upload(o.effects[i].image).Uploaded? && svc.save.Some? ==>
        var m := svc.save.value.message;
        && o.reply == Reply(500, Some(if Truthy(m) then m.value else InternalServerError), None)
        && o.stored == Some(NewRecord(session.userId.value, body.title.value, body))
  {
  }

  /** The delete reply depends only on the session and on whether the delete
      threw, not on the id: deleting an id that matches no record still
      replies 200. */
  lemma DeleteReplyIgnoresId(session: Session, id: string, id': string, deletion: Option<Thrown>)
    ensures DeleteThumbnail(session, id, deletion).reply == DeleteThumbnail(session, id', deletion).reply
  {
  }

  /** Unlike generation, a failing delete whose error has no message replies
      500 with no message at all rather than "Internal Server Error". */
  lemma DeleteErrorHasNoFallback(session: Session, id: string, body: Body, svc: Services)
    requires Truthy(session.userId) && Truthy(body.title) && svc.create == Some(Thrown(None))
    ensures DeleteThumbnail(session, id, Some(Thrown(None))).reply == Reply(500, None, None)
    ensures GenerateThumbnail(session, body, svc).reply == Reply(500, Some(InternalServerError), None)
  {
  }
}

=== FILE: js.dfy ===
/** The few JavaScript value semantics the controller relies on, for values that
    are either a string or absent. */
module Js {
  import opened Wrappers

  /** JavaScript truthiness of an optional string: `undefined`, `null` and `""`
      are falsy, every other string is truthy. */
  predicate Truthy(v: Option<string>)
    ensures Truthy(v) <==> v != None && v != Some("")
  {
    v.Some? && v.value != ""
  }

  /** The expression `v || fallback`. */
  function Or(v: Option<string>, fallback: string): (r: string)
    ensures Truthy(v) ==> r == v.value
    ensures !Truthy(v) ==> r == fallback
    ensures fallback != "" ==> r != ""
  {
    if Truthy(v) then v.value else fallback
  }

  /** Interpolation `${v}` in a template literal: an absent value renders as
      the text "undefined". */
  function Interpolate(v: Option<string>): (r: string)
    ensures v.Some? ==> r == v.value
    ensures v.None? ==> r == "undefined"
  {
    match v
    case Some(s) => s
    case None => "undefined"
  }
}

=== FILE: prompt.dfy ===
/** The prompt composer of the thumbnail controller
    (server/controllers/ThumbnailController.ts, lines 7-29 and 70-81): two
    static lookup tables and the fixed-order concatenation that turns a
    request's title, style, colour scheme and free text into the prompt sent
    to the image generator. */
module Prompt {
  import opened Wrappers
  import opened Js

  /** Style tag -> descriptive phrase (`stylePrompts`). */
  const StylePrompts: map<string, string> := map[
    "Bold & Graphic" :=
      "eye-catching thumbnail, bold typography, vibrant colors, expressive facial reaction, dramatic lighting, high contrast, click-worthy composition, professional style",
    "Tech/Futuristic" :=
      "futuristic thumbnail, sleek modern design, digital UI elements, glowing accents, holographic effects, cyber-tech aesthetic, sharp lighting, high-tech atmosphere",
    "Minimalist" :=
      "minimalist thumbnail, clean layout, simple shapes, limited color palette, plenty of negative space, modern flat design, clear focal point",
    "Photorealistic" :=
      "photorealistic thumbnail, ultra-realistic lighting, natural skin tones, candid moment, DSLR-style photography, lifestyle realism, shallow depth of field",
    "Illustrated" :=
      "illustrated thumbnail, custom digital illustration, stylized characters, bold outlines, vibrant colors, creative cartoon or vector art style"
  ]

  /** Colour-scheme tag -> descriptive phrase (`colorSchemeDescriptions`). */
  const ColourSchemes: map<string, string> := map[
    "vibrant" := "vibrant and energetic colors, high saturation, bold contrasts, eye-catching palette",
    "sunset" := "warm sunset tones, orange pink and purple hues, soft gradients, cinematic glow",
    "forest" := "natural green tones, earthy colors, calm and organic palette, fresh atmosphere",
    "neon" := "neon glow effects, electric blues and pinks, cyberpunk lighting, high contrast glow",
    "purple" := "purple-dominant color palette, magenta and violet tones, modern and stylish mood",
    "monochrome" := "black and white color scheme, high contrast, dramatic lighting, timeless aesthetic",
    "ocean" := "cool blue and teal tones, aquatic color palette, fresh and clean atmosphere",
    "pastel" := "soft pastel colors, low saturation, gentle tones, calm and friendly aesthetic"
  ]

  /** The fixed sentence every prompt ends with. */
  const ClosingSentence: string :=
    "The thumbnail should be visually stunning, bold, professional, and designed to maximize click-through rate."

  /** Property read `table[key]` on an object literal: a key outside the table,
      or no key at all, reads as undefined. */
  function Lookup(table: map<string, string>, key: Option<string>): Option<string> {
    if key.Some? && key.value in table then Some(table[key.value]) else None
  }

  /** The text the template interpolates for a style tag. No validation is
      performed: a tag outside the table interpolates "undefined". */
  function StylePhrase(style: Option<string>): (phrase: string)
    ensures style.Some? && style.value in StylePrompts ==> phrase == StylePrompts[style.value]
    ensures style.None? || style.value !in StylePrompts ==> phrase == "undefined"
  {
    Interpolate(Lookup(StylePrompts, style))
  }

  /** The text the template interpolates for a (truthy) colour-scheme tag;
      an unknown tag interpolates "undefined". */
  function ColourPhrase(scheme: string): (phrase: string)
    ensures scheme in ColourSchemes ==> phrase == ColourSchemes[scheme]
    ensures scheme !in ColourSchemes ==> phrase == "undefined"
  {
    Interpolate(Lookup(ColourSchemes, Some(scheme)))
  }

  /** `Create a <phrase> for: "<title>". ` (line 70). */
  function StyleSentence(phrase: string, title: string): string {
    "Create a " + phrase + " for: \"" + title + "\". "
  }

  /** `Use a <phrase> color scheme. ` (line 73). */
  function ColourSentence(phrase: string): string {
    "Use a " + phrase + " color scheme. "
  }

  /** `Additional details: <text>. ` (line 77). */
  function DetailsSentence(text: string): string {
    "Additional details: " + text + ". "
  }

  /** The colour text a scheme contributes: none when the scheme is falsy. */
  function ColourPart(scheme: Option<string>): string {
    if Truthy(scheme) then ColourSentence(ColourPhrase(scheme.value)) else ""
  }

  /** The details text the user's prompt contributes: none when it is falsy. */
  function DetailsPart(userPrompt: Option<string>): string {
    if Truthy(userPrompt) then DetailsSentence(userPrompt.value) else ""
  }

  /** The prompt exactly as the handler accumulates it: the style sentence,
      then `+=` of the colour sentence when the scheme is truthy, then `+=` of
      the additional details when the user's text is truthy, then `+=` of the
      closing sentence. */
  function Compose(title: string, style: Option<string>, scheme: Option<string>, userPrompt: Option<string>): (p: string)
    ensures StyleSentence(StylePhrase(style), title) <= p
    ensures |p| >= |StyleSentence(StylePhrase(style), title)| + |ClosingSentence|
    ensures p[|p| - |ClosingSentence|..] == ClosingSentence
  {
    var p0 := StyleSentence(StylePhrase(style), title);
    var p1 := if Truthy(scheme) then p0 + ColourSentence(ColourPhrase(scheme.value)) else p0;
    var p2 := if Truthy(userPrompt) then p1 + DetailsSentence(userPrompt.value) else p1;
    p2 + ClosingSentence
  }

  // ---------------------------------------------------------------------------
  // Reference description: the prompt as an ordered list of clauses.
  // ---------------------------------------------------------------------------

  /** One sentence of a prompt. */
  datatype Clause =
    | StyleClause(phrase: string, title: string)
    | ColourClause(phrase: string)
    | DetailsClause(text: string)
    | ClosingClause

  /** The position a clause kind must take in a prompt. */
  function Rank(c: Clause): nat {
    match c
    case StyleClause(_, _) => 0
    case ColourClause(_) => 1
    case DetailsClause(_) => 2
    case ClosingClause => 3
  }

  /** The words of one clause. */
  function Text(c: Clause): string {
    match c
    case StyleClause(phrase, title) => StyleSentence(phrase, title)
    case ColourClause(phrase) => ColourSentence(phrase)
    case DetailsClause(text) => DetailsSentence(text)
    case ClosingClause => ClosingSentence
  }

  /** The words of a clause list, in list order. */
  function Render(cs: seq<Clause>): string {
    if |cs| == 0 then "" else Text(cs[0]) + Render(cs[1..])
  }

  /** Clause kinds strictly increase along the list: no kind repeats and
      none appears out of order. */
  ghost predicate StrictlyRanked(cs: seq<Clause>) {
    forall i, j :: 0 <= i < j < |cs| ==> Rank(cs[i]) < Rank(cs[j])
  }

  /** Whether a clause is one the request calls for, with the right content. */
  ghost predicate Wanted(c: Clause, title: string, style: Option<string>, scheme: Option<string>, userPrompt: Option<string>) {
    match c
    case StyleClause(phrase, t) => phrase == StylePhrase(style) && t == title
    case ColourClause(phrase) => Truthy(scheme) && phrase == ColourPhrase(scheme.value)
    case DetailsClause(text) => Truthy(userPrompt) && text == userPrompt.value
    case ClosingClause => true
  }

  /** A declarative account of a prompt's clause list: ordered by kind, holding
      only wanted clauses, and holding every clause the request calls for. */
  ghost predicate Describes(cs: seq<Clause>, title: string, style: Option<string>, scheme: Option<string>, userPrompt: Option<string>) {
    && StrictlyRanked(cs)
    && (forall c :: c in cs ==> Wanted(c, title, style, scheme, userPrompt))
    && StyleClause(StylePhrase(style), title) in cs
    && ClosingClause in cs
    && (Truthy(scheme) ==> ColourClause(ColourPhrase(scheme.value)) in cs)
    && (Truthy(userPrompt) ==> DetailsClause(userPrompt.value) in cs)
  }

  /** The clauses a request calls for, in order. */
  function Clauses(title: string, style: Option<string>, scheme: Option<string>, userPrompt: Option<string>): (cs: seq<Clause>)
    ensures |cs| == 2 + (if Truthy(scheme) then 1 else 0) + (if Truthy(userPrompt) then 1 else 0)
    ensures cs[0] == StyleClause(StylePhrase(style), title) && cs[|cs| - 1] == ClosingClause
  {
    [StyleClause(StylePhrase(style), title)]
    + (if Truthy(scheme) then [ColourClause(ColourPhrase(scheme.value))] else [])
    + (if Truthy(userPrompt) then [DetailsClause(userPrompt.value)] else [])
    + [ClosingClause]
  }

  /** The clause list the composer renders is one the declarative account
      describes. */
  lemma ClausesDescribed(title: string, style: Option<string>, scheme: Option<string>, userPrompt: Option<string>)
    ensures Describes(Clauses(title, style, scheme, userPrompt), title, style, scheme, userPrompt)
  {
  }

  /** In any clause list the declarative account describes, a colour clause
      is present exactly when the scheme is truthy and a details clause exactly
      when the user's text is truthy. */
  lemma OptionalClausesIffTruthy(cs: seq<Clause>, title: string, style: Option<string>, scheme: Option<string>, userPrompt: Option<string>)
    requires Describes(cs, title, style, scheme, userPrompt)
    ensures (exists c :: c in cs && c.ColourClause?) <==> Truthy(scheme)
    ensures (exists c :: c in cs && c.DetailsClause?) <==> Truthy(userPrompt)
  {
  }

  /** Rendering distributes over concatenation of clause lists. */
  lemma {:induction false} RenderAppend(a: seq<Clause>, b: seq<Clause>)
    ensures Render(a + b) == Render(a) + Render(b)
    decreases |a|
  {
    if |a| == 0 {
      assert a + b == b;
    } else {
      assert (a + b)[1..] == a[1..] + b;
      RenderAppend(a[1..], b);
    }
  }

  /** A one-clause list renders as that clause's words. */
  lemma RenderSingle(c: Clause)
    ensures Render([c]) == Text(c)
  {
  }

  /** The accumulated prompt is exactly the rendering of the clause list:
      style, colour (if any), details (if any), closing, and nothing else. */
  lemma ComposeRendersClauses(title: string, style: Option<string>, scheme: Option<string>, userPrompt: Option<string>)
    ensures Compose(title, style, scheme, userPrompt) == Render(Clauses(title, style, scheme, userPrompt))
  {
    var s := [StyleClause(StylePhrase(style), title)];
    var c: seq<Clause> := if Truthy(scheme) then [ColourClause(ColourPhrase(scheme.value))] else [];
    var d: seq<Clause> := if Truthy(userPrompt) then [DetailsClause(userPrompt.value)] else [];
    var z := [ClosingClause];
    assert Clauses(title, style, scheme, userPrompt) == s + c + d + z;
    RenderAppend(s + c + d, z);
    RenderAppend(s + c, d);
    RenderAppend(s, c);
    RenderSingle(s[0]);
    RenderSingle(ClosingClause);
    if Truthy(scheme) { RenderSingle(c[0]); }
    if Truthy(userPrompt) { RenderSingle(d[0]); }
  }

  /** The first clause of a strictly ranked list has the lowest rank in it. */
  lemma HeadRanksLowest(a: seq<Clause>, c: Clause)
    requires StrictlyRanked(a)
    requires c in a && c != a[0]
    ensures Rank(a[0]) < Rank(c)
  {
  }

  /** The head of a nonempty list is one of its members. */
  lemma NonEmptyHasHead(b: seq<Clause>)
    ensures |b| > 0 ==> b[0] in b
  {
  }

  /** Two nonempty strictly ranked lists with the same members share their head. */
  lemma HeadsAgree(a: seq<Clause>, b: seq<Clause>)
    requires StrictlyRanked(a) && StrictlyRanked(b)
    requires forall c :: c in a <==> c in b
    requires |a| > 0
    ensures |b| > 0 && a[0] == b[0]
  {
    assert a[0] in b;
    assert b[0] in a;
    if a[0] != b[0] {
      HeadRanksLowest(a, b[0]);
      HeadRanksLowest(b, a[0]);
    }
  }

  /** Dropping a shared head keeps the members shared. */
  lemma TailsShareMembers(a: seq<Clause>, b: seq<Clause>)
    requires StrictlyRanked(a) && StrictlyRanked(b)
    requires forall c :: c in a <==> c in b
    requires |a| > 0 && |b| > 0 && a[0] == b[0]
    ensures forall c :: c in a[1..] <==> c in b[1..]
  {
    forall c
      ensures c in a[1..] ==> c in b[1..]
      ensures c in b[1..] ==> c in a[1..]
    {
      if c in a[1..] {
        var i :| 0 <= i < |a[1..]| && a[1..][i] == c;
        assert Rank(a[0]) < Rank(a[i + 1]);
        assert c in b && c != b[0];
        var j :| 0 <= j < |b| && b[j] == c;
        assert b[1..][j - 1] == c;
      }
      if c in b[1..] {
        var j :| 0 <= j < |b[1..]| && b[1..][j] == c;
        assert Rank(b[0]) < Rank(b[j + 1]);
        assert c in a && c != a[0];
        var i :| 0 <= i < |a| && a[i] == c;
        assert a[1..][i - 1] == c;
      }
    }
  }

  /** Two strictly ranked clause lists with the same members are the same list. */
  lemma {:induction false} RankedListsWithSameMembersAreEqual(a: seq<Clause>, b: seq<Clause>)
    requires StrictlyRanked(a) && StrictlyRanked(b)
    requires forall c :: c in a <==> c in b
    ensures a == b
    decreases |a|
  {
    if |a| == 0 {
      NonEmptyHasHead(b);
    } else {
      HeadsAgree(a, b);
      TailsShareMembers(a, b);
      RankedListsWithSameMembersAreEqual(a[1..], b[1..]);
      assert a == [a[0]] + a[1..];
      assert b == [b[0]] + b[1..];
    }
  }

  /** The declarative account determines the clause list: any list it
      describes is the one the composer renders. */
  lemma DescribedListIsClauses(cs: seq<Clause>, title: string, style: Option<string>, scheme: Option<string>, userPrompt: Option<string>)
    requires Describes(cs, title, style, scheme, userPrompt)
    ensures cs == Clauses(title, style, scheme, userPrompt)
  {
    var e := Clauses(title, style, scheme, userPrompt);
    forall c
      ensures c in cs <==> c in e
    {
      if c in cs {
        assert Wanted(c, title, style, scheme, userPrompt);
      }
    }
    RankedListsWithSameMembersAreEqual(cs, e);
  }

  /** Where the pieces of a four-part concatenation sit. */
  lemma FourParts(a: string, b: string, c: string, d: string)
    ensures var p := a + b + c + d;
      && a <= p
      && p[|a|..|a| + |b|] == b
      && p[|a| + |b|..|a| + |b| + |c|] == c
      && p[|a| + |b| + |c|..] == d
  {
  }

  /** The user's text sits verbatim inside the details sentence, after the
      20-character label. */
  lemma DetailsSentenceQuotes(text: string)
    ensures var s := DetailsSentence(text);
      |s| == 20 + |text| + 2 && s[20..20 + |text|] == text
  {
  }

  /** The layout of the flat prompt string: it opens with the style sentence;
      right after it comes the colour sentence when the scheme is truthy and
      no text at all otherwise; then the details sentence quoting the user's
      text verbatim when that is truthy; and the closing sentence ends it,
      directly after the details or colour text. */
  lemma ComposeLayout(title: string, style: Option<string>, scheme: Option<string>, userPrompt: Option<string>)
    ensures var p := Compose(title, style, scheme, userPrompt);
      var head := StyleSentence(StylePhrase(style), title);
      var colour := ColourPart(scheme);
      var details := DetailsPart(userPrompt);
      var k := |head| + |colour|;
      && head <= p
      && |p| == k + |details| + |ClosingSentence|
      && p[|head|..k] == colour
      && p[k..k + |details|] == details
      && (Truthy(userPrompt) ==> p[k + 20..k + 20 + |userPrompt.value|] == userPrompt.value)
      && p[k + |details|..] == ClosingSentence
  {
    var head := StyleSentence(StylePhrase(style), title);
    var colour := ColourPart(scheme);
    var details := DetailsPart(userPrompt);
    ComposeConcatenates(title, style, scheme, userPrompt);
    FourParts(head, colour, details, ClosingSentence);
    if Truthy(userPrompt) {
      DetailsSentenceQuotes(userPrompt.value);
      DetailsAt(head + colour + details + ClosingSentence, |head| + |colour|, userPrompt.value);
    }
  }

  /** The prompt is the concatenation of its four (possibly empty) pieces. */
  lemma ComposeConcatenates(title: string, style: Option<string>, scheme: Option<string>, userPrompt: Option<string>)
    ensures Compose(title, style, scheme, userPrompt)
         == StyleSentence(StylePhrase(style), title)
          + ColourPart(scheme)
          + DetailsPart(userPrompt)
          + ClosingSentence
  {
    var head := StyleSentence(StylePhrase(style), title);
    if !Truthy(scheme) {
      assert head + "" == head;
    }
    if !Truthy(userPrompt) {
      assert head + ColourPart(scheme) + "" == head + ColourPart(scheme);
    }
  }

  /** A details sentence found at offset k of p puts the user's text at k + 20. */
  lemma DetailsAt(p: string, k: nat, text: string)
    requires k + |DetailsSentence(text)| <= |p|
    requires p[k..k + |DetailsSentence(text)|] == DetailsSentence(text)
    ensures p[k + 20..k + 20 + |text|] == text
  {
    DetailsSentenceQuotes(text);
    var s := DetailsSentence(text);
    assert forall i :: 0 <= i < |text| ==> p[k + 20 + i] == p[k..k + |s|][20 + i] == s[20 + i] == text[i];
  }

  /** With neither a colour scheme nor free text, the prompt is the style
      sentence followed directly by the closing sentence. */
  lemma MinimalistScenario()
    ensures Compose("My Video", Some("Minimalist"), None, None)
         == StyleSentence(StylePrompts["Minimalist"], "My Video") + ClosingSentence
  {
  }

  /** A style tag outside the table is not rejected: the prompt is composed
      with the text "undefined" in place of the phrase, and an unknown colour
      scheme likewise. */
  lemma UnknownTagsInterpolateUndefined()
    ensures Compose("My Video", Some("Anime"), Some("rainbow"), None)
         == StyleSentence("undefined", "My Video") + ColourSentence("undefined") + ClosingSentence
  {
  }
}

=== FILE: thumbnails.dfy ===
/** The thumbnail record the controller creates and completes
    (server/controllers/ThumbnailController.ts, lines 39-49 and 119-121).
    The document store itself is not modelled; these are the values the
    controller hands to it. */
module Thumbnails {
  import opened Wrappers

  /** The generation request's body fields. A field sent as `null`, left out,
      or sent as another JSON type is modelled as an absent string. */
  datatype Body = Body(
    title: Option<string>,
    prompt: Option<string>,
    style: Option<string>,
    aspectRatio: Option<string>,
    colourScheme: Option<string>,
    textOverlay: Option<string>)

  /** A thumbnail record. `promptUsed` holds what line 42 stores there: the
      user's own text, not the composed prompt. */
  datatype Thumbnail = Thumbnail(
    userId: string,
    title: string,
    promptUsed: Option<string>,
    userPrompt: Option<string>,
    style: Option<string>,
    aspectRatio: Option<string>,
    colourScheme: Option<string>,
    textOverlay: Option<string>,
    isGenerating: bool,
    imageUrl: Option<string>)

  /** Created, image not yet attached. */
  predicate Pending(t: Thumbnail) {
    t.isGenerating && t.imageUrl.None?
  }

  /** Two records describe the same request: every field except the
      generation state and the image URL agrees. */
  predicate SameRequest(t: Thumbnail, u: Thumbnail) {
    && t.userId == u.userId
    && t.title == u.title
    && t.promptUsed == u.promptUsed
    && t.userPrompt == u.userPrompt
    && t.style == u.style
    && t.aspectRatio == u.aspectRatio
    && t.colourScheme == u.colourScheme
    && t.textOverlay == u.textOverlay
  }

  /** The record `Thumbnail.create` is given: the body's fields as sent
      (the aspect ratio without its default), owned by the session's user,
      and pending. */
  function NewRecord(userId: string, title: string, body: Body): (t: Thumbnail)
    ensures Pending(t)
    ensures t.userId == userId && t.title == title
    ensures t.promptUsed == body.prompt && t.userPrompt == body.prompt
    ensures t.style == body.style && t.aspectRatio == body.aspectRatio
    ensures t.colourScheme == body.colourScheme && t.textOverlay == body.textOverlay
  {
    Thumbnail(userId, title, body.prompt, body.prompt, body.style, body.aspectRatio,
              body.colourScheme, body.textOverlay, true, None)
  }

  /** Lines 119-120: attach the upload's `secure_url` and clear the
      generating flag, leaving the request's fields alone. */
  function MarkComplete(t: Thumbnail, secureUrl: Option<string>): (u: Thumbnail)
    ensures !u.isGenerating && u.imageUrl == secureUrl
    ensures SameRequest(t, u)
    ensures !Pending(u)
  {
    t.(imageUrl := secureUrl, isGenerating := false)
  }
}

=== FILE: wrappers.dfy ===
/** Option and Result, the two failure-carrying shapes the controller needs:
    a JavaScript value that may be undefined, and a step that may throw. */
module Wrappers {

  /** A value that may be absent (`undefined` or `null` on the JavaScript side). */
  datatype Option<+T> = None | Some(value: T)

  /** The outcome of a step that either produces a value or throws an error. */
  datatype Result<+R, +E> = Success(value: R) | Failure(error: E)
}
